=== FILE: README.md ===
# ImPlot_Interface plot store, modelled in Dafny

ImPlot_Interface is a small C++ wrapper around Dear ImGui/ImPlot. Producer
threads push data into an `ImPlotter`, and a render thread draws it. This
project models the data side of the `ImPlotter`:

- the two name-keyed registries of plot records:
  - static plots: one x axis shared by several y series, replaced wholesale on
    each write;
  - dynamic plots: one y series kept in a bounded sliding window;
- the create-or-update writes `AddStaticPlot` (both overloads) and
  `AddDynamicPlot` (the explicit-x form and the auto-x form that takes x from
  a per-plot counter);
- the window append `DynamicPlotData::AddData`;
- the `running` / `paused` / `glfw_freed` flags that gate the writes.

Every operation is a pure function from the plotter before the call to the
plotter after it. The shape error that `AddStaticPlot` throws becomes a
returned value, and the plotter it returns is the one left behind by the
throw. Plot values are doubles that are stored but never computed on, so they
are modelled as `real`. Counters and window sizes are `nat`.

Modules:

- `PlotData` (`plot_data.dfy`): the two plot records, `AddData`, and the
  sliding-window theory of a run of appends. The reference definition is
  `Last(s, n)`, the last `n` elements of `s`.
- `Plotter` (`plotter.dfy`): the plotter state, its lifecycle flags and the
  four write operations.
- `PlotterProperties` (`plotter_properties.dfy`): properties that relate
  several calls. They cover:
  - the registry invariant;
  - the running gate over the lifecycle;
  - repeated static writes;
  - runs of appends to one dynamic plot;
  - the order in which the render loop visits the plots.
- `KeyOrder` (`key_order.dfy`): the lexicographic order of `std::string`, and
  the fact that a `std::map` is traversed in ascending key order.
- `Decimal` (`decimal.dfy`): the `std::to_string` rendering of the series
  index in the shape-error message, with a parser that reads it back.

Behaviour of the code worth knowing, each stated by the members named:

- **Traversal order.** The registries are `std::map`s, so the render loop
  visits plots in ascending name order, whatever order they were created in.
  `CreationOrderInvisible` and `DrawOrderIsNameOrder` state this.
- **A shrunk window is never trimmed.** When a dynamic plot's window is set
  below the number of points it holds, no append brings the length down:
  `AddData` pushes one point and evicts at most one, so the length stays
  where it was and the plot keeps more points than its window.
  `ShrinkDoesNotTrim` and `ShrunkWindowKeepsLength` state this.
- **A window size of 0 is accepted.** The plot is created but stays empty.
  `FreshWindow` states this.
- **Starting after exit.** `RunMainLoop` sets the running flag whatever the
  state before, including after the render loop has exited and freed the
  renderer. `RestartAfterExitAcceptsWrites` states this.
- **A held space key keeps toggling.** The render loop reads the space key
  once per frame and flips the pause flag each time it sees it down, so a
  press held over an even number of frames leaves the flag as it was.
  `TogglePause` is the effect of one such frame.
- **Label counts are not checked.** The number of y labels is never compared
  with the number of y series. `LabelCountUnchecked` and
  `ErrorIgnoresLabels` state this.

## Model

| member | source | states |
|---|---|---|
| PlotData.NewDynamic | include/implot_interface/implot_interface.hpp:29-37 | a new dynamic plot has the given name, labels and window, no points, and counter 0 |
| PlotData.Last | src/implot_interface.cpp:24-28 | the window reference: the result is the suffix of the history of length min(\|s\|, n) |
| PlotData.AddData | src/implot_interface.cpp:19-29 | the new point is at the back of both series unless the window is 0; the length grows by one, or stays put exactly when the push overflows the window; the result is the pushed history minus at most its front element, with the same offset for x and y; equal series lengths are kept; no other field changes |
| PlotData.AddDataAtCounter | src/implot_interface.cpp:367-369 | the point goes in at x = the counter before the call; the counter advances by one; otherwise this is an ordinary append |
| PlotData.AddDataIsLast | src/implot_interface.cpp:19-29 | on a buffer with equal series no longer than the window, an append leaves exactly the last W elements of the history extended by the point, and keeps that shape |
| PlotData.AddAll | src/implot_interface.cpp:19-29 | a run of appends never changes the name, labels, window or counter |
| PlotData.AddAllIsLast | src/implot_interface.cpp:19-29 | after any run of appends, both series are the last W elements of the old contents followed by the run, in append order, and the buffer stays well formed |
| PlotData.Count | src/implot_interface.cpp:367-369 | the counter values used by n auto-x appends: a sequence of length n |
| PlotData.CountValues | src/implot_interface.cpp:367-369 | element i of a count from c is c + i |
| PlotData.CountSplit | src/implot_interface.cpp:367-369 | a count from c starts with c and continues as the count from c + 1 |
| PlotData.AddAllAtCounter | src/implot_interface.cpp:367-369 | a run of auto-x appends never changes the name, labels or window |
| PlotData.AddAllAtCounterIsLast | src/implot_interface.cpp:367-369 | after n auto-x appends the x series is the last W of the old x values followed by counter, counter + 1, …; the y series is the last W of the old values followed by the run; the counter advanced by n |
| PlotData.FreshWindow | src/implot_interface.cpp:297-310 | from an empty buffer, n appends leave min(n, W) points, the last ones appended, in order; with W = 0 the buffer stays empty |
| PlotData.FullWindowRoundTrip | src/implot_interface.cpp:24-28 | appending exactly W points to an empty buffer gives them back in order, and one more append evicts exactly the oldest |
| PlotData.FullEvictsOldest | src/implot_interface.cpp:24-28 | on a full buffer an append drops exactly the front point of both series |
| PlotData.ShrunkWindowKeepsLength | src/implot_interface.cpp:317-324 | on a buffer holding at least W points, any run of appends keeps the length of both series, and both series slide: each is the last L elements of its old contents followed by the run, L being the old length |
| Plotter.Message | src/implot_interface.cpp:380-384 | the raised text starts with the exception prefix and "x_data and y_data[", ends with "] have different sizes", and between them holds only digits, with no leading zero, that read back as the series index |
| Plotter.MessageNamesIndex | src/implot_interface.cpp:262 | two shape errors with the same text name the same series index |
| Decimal.ToString | src/implot_interface.cpp:262 | the index rendering is a non-empty digit string with no leading zero, one digit exactly for indices below 10 |
| Decimal.ParseToString | src/implot_interface.cpp:262 | reading back the rendered index gives the index |
| Decimal.ToStringInjective | src/implot_interface.cpp:262 | distinct indices render to distinct text |
| Plotter.NewPlotter | include/implot_interface/implot_interface.hpp:46-61 | a new plotter has empty registries, is neither running, paused nor freed, and keeps the given size and mutex setting (defaults 1280 × 720, mutex on) |
| Plotter.RunMainLoop | src/implot_interface.cpp:202-207 | the plotter is running afterwards, whatever its state before, and nothing else changes |
| Plotter.StopMainLoop | src/implot_interface.cpp:224-227 | the plotter is not running afterwards, and nothing else changes |
| Plotter.TogglePause | src/implot_interface.cpp:110-114 | each render frame that sees the space key down flips the pause flag, and nothing else changes |
| Plotter.MainLoopExit | src/implot_interface.cpp:198-199 | when the render loop ends, the plotter is not running and is marked freed, and the data is kept |
| Plotter.FirstMismatch | src/implot_interface.cpp:257-264 | none is found iff every series has the x length; otherwise the result is the first series, in order, whose length differs |
| Plotter.AddStaticPlot | src/implot_interface.cpp:237-276 | when not running, nothing changes. A new name gets the full record as supplied, and the error is raised iff some series has the wrong length, naming the first one; the record stays registered either way. An existing name gets its x and y data replaced and keeps its name and labels, with no check. No other record and nothing in the dynamic registry changes |
| Plotter.AddStaticPlotSingle | src/implot_interface.cpp:278-285 | when not running, nothing changes. The single series is stored as a one-series plot with a one-label list; on a new name an error, naming series 0, is raised iff its length differs from x; on an existing name the data is replaced, the name and labels are kept, and there is no error. No other record, nothing in the dynamic registry and no flag changes |
| Plotter.Target | src/implot_interface.cpp:297-323 | an append goes to the existing record with its window set to the requested size, or to a fresh record with the given labels, no data and counter 0 |
| Plotter.AddDynamicPlot | src/implot_interface.cpp:287-327 | when not running, nothing changes. Otherwise the plot under the name is the append of (x, y) to its target: the window is set to the argument; an existing plot keeps its name, labels and counter; a new plot takes the supplied labels; the point is at the back when W > 0. Nothing else changes |
| Plotter.AddDynamicPlotAutoX | src/implot_interface.cpp:329-372 | when not running, nothing changes. Otherwise the plot under the name is an append at x = its counter, and the counter is one more than before (1 for a new plot). Nothing else changes |
| PlotterProperties.StaticWritePreservesValid | src/implot_interface.cpp:246-256 | a static write keeps every record filed under its own name |
| PlotterProperties.DynamicWritePreservesValid | src/implot_interface.cpp:297-326 | an append keeps every dynamic record under its own name, with equal x and y lengths |
| PlotterProperties.AutoXWritePreservesValid | src/implot_interface.cpp:338-371 | the same for the auto-x append |
| PlotterProperties.FreshPlotterDropsWrites | src/implot_interface.cpp:243-244 | before `RunMainLoop`, whatever size and mutex setting the plotter was built with, all four writes (both static overloads, both appends) leave it unchanged and raise nothing |
| PlotterProperties.StoppedPlotterDropsWrites | src/implot_interface.cpp:243-295 | after a stop request, or after the render loop has exited, both static overloads and both append overloads are dropped, whatever labels they carry |
| PlotterProperties.RestartAfterExitAcceptsWrites | src/implot_interface.cpp:202-207 | starting again after the render loop has exited succeeds: the plotter runs with its renderer freed, and an append stores the append of its point to the target record under its name, exactly as on a running plotter |
| PlotterProperties.StaticSecondWriteKeepsLabels | src/implot_interface.cpp:267-275 | with locking off, or when the first write raised nothing, a second write to a static name never raises, and equals one write of the second data under the first write's labels |
| PlotterProperties.BadShapeThenRepair | src/implot_interface.cpp:246-275 | with locking off, a bad first write raises at the first bad series yet registers the plot; a later write replaces the data with no error |
| PlotterProperties.LabelCountUnchecked | src/implot_interface.cpp:257-264 | for every new name, a write with fewer labels than series raises no error when the series fit the x axis, and the stored labels stay fewer than the stored series |
| PlotterProperties.ErrorIgnoresLabels | src/implot_interface.cpp:257-264 | for all inputs, two writes that differ only in their label lists raise the same error and store the same x and y data |
| PlotterProperties.OmittedLabelsAreXAndY | include/implot_interface/implot_interface.hpp:76-90 | a caller who omits the labels gets "x" for the axis and "y" for the series, in the single-series static write and in both appends |
| PlotterProperties.DynamicWriteAddsAtMostOneName | src/implot_interface.cpp:297-301 | an append adds one name if it was absent and none otherwise |
| PlotterProperties.StaticWriteAddsAtMostOneName | src/implot_interface.cpp:246-250 | a static write adds one name if it was absent and none otherwise |
| PlotterProperties.SharedNameInBothRegistries | include/implot_interface/implot_interface.hpp:43-44 | a static and a dynamic plot may share a name, and writing the dynamic one leaves the static one untouched |
| PlotterProperties.AppendRun | src/implot_interface.cpp:287-327 | a run of appends never touches the static registry or the flags |
| PlotterProperties.AutoXRun | src/implot_interface.cpp:329-372 | a run of auto-x appends never touches the static registry or the flags |
| PlotterProperties.AppendRunIsAddAll | src/implot_interface.cpp:287-327 | a run of appends to one name is the buffer-level run on that plot's target, and no other dynamic plot is added, removed or changed |
| PlotterProperties.AppendRunWindow | src/implot_interface.cpp:287-327 | after a run of appends, the plot holds the last W of its old points followed by the run, under its old name, labels and counter |
| PlotterProperties.AutoXRunIsCounterRun | src/implot_interface.cpp:329-372 | a run of auto-x appends to one name is the counter-form run on that plot's target, and no other dynamic plot is added, removed or changed |
| PlotterProperties.AutoXRunWindow | src/implot_interface.cpp:329-372 | after n auto-x appends the x values continue the counter, the y values are the last W, and the counter advanced by n |
| PlotterProperties.NewPlotWindow | src/implot_interface.cpp:297-310 | n appends with window W to a new name leave min(n, W) points, the last ones appended, in order, under the first call's labels |
| PlotterProperties.AutoXCountsFromZero | src/implot_interface.cpp:338-353 | auto-x appends to a new name are placed at x = 0, 1, 2, … in call order, and the window shows the latest W of them |
| PlotterProperties.ShrinkDoesNotTrim | src/implot_interface.cpp:317-324 | an append with a window at or below the current length leaves the length unchanged |
| PlotterProperties.StaticDrawOrder | src/implot_interface.cpp:125 | the render loop visits the static names in strictly ascending order, each present name exactly once |
| PlotterProperties.DynamicDrawOrder | src/implot_interface.cpp:152 | the render loop visits the dynamic names in strictly ascending order, each present name exactly once |
| PlotterProperties.TwoAppends | src/implot_interface.cpp:297-310 | two appends to different names, each with its own window and labels, act on their own plots, as if each were made on the original plotter |
| PlotterProperties.CreationOrderInvisible | include/implot_interface/implot_interface.hpp:44 | creating two plots in either order, each with its own point, window and labels, gives the same plotter and the same drawing order |
| PlotterProperties.DrawOrderIsNameOrder | src/implot_interface.cpp:125 | any strictly ascending listing of the static names is the drawing order |
| KeyOrder.Listing | include/implot_interface/implot_interface.hpp:43-44 | a map's keys in traversal order: strictly ascending, each key exactly once |
| KeyOrder.AscendingListingUnique | include/implot_interface/implot_interface.hpp:43-44 | there is only one strictly ascending listing of a key set, so the traversal order depends only on which names are present |
| KeyOrder.LessTotal | include/implot_interface/implot_interface.hpp:43 | any two distinct names are ordered one way or the other |
| KeyOrder.LessTransitive | include/implot_interface/implot_interface.hpp:43 | the name order is transitive |
| KeyOrder.LessAsymmetric | include/implot_interface/implot_interface.hpp:43 | the name order is asymmetric |

## Left out

- `MainLoop_` rendering: the GLFW/OpenGL/ImGui calls, window creation and axis fitting are foreign library calls. Only its flag effects are modelled: `TogglePause` and `MainLoopExit`. The render loop's traversal order is modelled as `StaticDrawOrder` and `DynamicDrawOrder`.
- `Pauser`: a busy-wait on the pause flag. Each write is modelled as it behaves once the wait has let it through, so `paused` never blocks a write in the model.
- Threads and mutexes: `RunMainLoop`'s thread start, per-plot locking, `LockMutex_`/`UnLockMutex_` and `use_mutex_` are concurrency. The model is sequential. Because of this it does not show that a shape error leaves the new plot's mutex locked. It also does not show the race in which the render thread reads `running_` before `RunMainLoop` sets it.
- PlotterProperties.StaticSecondWriteKeepsLabels: is stated only with locking off or when the first write raised nothing. With locking on, the default, a raised shape error leaves the new plot's lock held, so the second write to that name blocks for ever. The model has no lock state, so it also cannot show a lock left held by a write made before the plotter it starts from.
- PlotterProperties.BadShapeThenRepair: is stated only with locking off. With locking on, the default, the raised shape error leaves the new plot's lock held. The later write to that name then blocks for ever, and so does the render loop when it reaches that plot. The model has no lock state, so it cannot show this.
- The destructor's wait for the render loop: concurrency and process lifetime.
- `reserve` calls: they change capacity, not contents. That includes the existing-name branch of the explicit-x `AddDynamicPlot`, which reserves the x series twice and the y series not at all. The auto-x overload reserves both series.
- `Log_` and the console output of the constructor and the resize branch: I/O only.
- Heap records created with `new` and never deleted: memory management has no counterpart in the model.
- The static-record fields that `DynamicPlotData` inherits and shadows: they are never read or written for a dynamic plot.
- `IsRunning`, `IsPaused` and `IsGlfwFreed` are plain field reads, the `running`, `paused` and `glfwFreed` fields of `Plotter.ImPlotter`.
- Plotter.AddDynamicPlotAutoX: does not model the 64-bit `size_t` wrap of the counter, or the rounding of the counter to a double above 2^53. The counter is an unbounded `nat`, and x is its exact value.
- Plotter.AddDynamicPlot: does not model the 64-bit `size_t` range of the window size. It is an unbounded `nat`.
- The example program `main.cpp` and the build files are not part of this model.

=== FILE: decimal.dfy ===
/**
 The decimal rendering of a non-negative integer, as `std::to_string` produces it
 for the `size_t` series index in the shape-error message, together with the
 parser that reads it back.
 */
module Decimal {

  predicate IsDigit(c: char) {
    '0' <= c <= '9'
  }

  predicate AllDigits(s: string) {
    forall i :: 0 <= i < |s| ==> IsDigit(s[i])
  }

  function DigitChar(d: nat): (c: char)
    requires d < 10
    ensures IsDigit(c)
    ensures c == '0' <==> d == 0
  {
    "0123456789"[d]
  }

  function DigitValue(c: char): (d: nat)
    requires IsDigit(c)
    ensures d < 10
  {
    (c as int - '0' as int) as nat
  }

  lemma DigitRoundTrip(d: nat)
    requires d < 10
    ensures DigitValue(DigitChar(d)) == d
  {
  }

  /** Shortest decimal text of `n`: at least one digit, and no leading zero
      unless the number itself is zero. */
  function ToString(n: nat): (s: string)
    ensures 1 <= |s|
    ensures AllDigits(s)
    ensures |s| > 1 ==> s[0] != '0'
    ensures n < 10 <==> |s| == 1
    decreases n
  {
    if n < 10 then [DigitChar(n)] else ToString(n / 10) + [DigitChar(n % 10)]
  }

  /** The number a digit string denotes (most significant digit first). */
  function Parse(s: string): nat
    requires AllDigits(s)
    decreases |s|
  {
    if s == [] then 0 else Parse(s[..|s| - 1]) * 10 + DigitValue(s[|s| - 1])
  }

  /** Reading back the rendered index yields the index. */
  lemma {:induction false} ParseToString(n: nat)
    ensures Parse(ToString(n)) == n
    decreases n
  {
    var s := ToString(n);
    if n < 10 {
      DigitRoundTrip(n);
    } else {
      var p := ToString(n / 10);
      assert s == p + [DigitChar(n % 10)];
      assert s[..|s| - 1] == p;
      ParseToString(n / 10);
      DigitRoundTrip(n % 10);
    }
  }

  /** Distinct numbers render to distinct text. */
  lemma ToStringInjective(m: nat, n: nat)
    requires ToString(m) == ToString(n)
    ensures m == n
  {
    ParseToString(m);
    ParseToString(n);
  }
}

=== FILE: key_order.dfy ===
/**
 The order in which a `std::map<std::string, T>` is traversed: ascending by key
 under the lexicographic comparison of `std::string`. Plot names are modelled as
 `seq<char>` compared character by character.
 */
module KeyOrder {

  /** `a` sorts strictly before `b`: first differing character decides, and a
      proper prefix sorts before the longer string. */
  predicate Less(a: string, b: string)
    decreases |a|
  {
    if a == [] then b != []
    else if b == [] then false
    else if a[0] != b[0] then a[0] < b[0]
    else Less(a[1..], b[1..])
  }

  lemma {:induction false} LessIrreflexive(a: string)
    ensures !Less(a, a)
    decreases |a|
  {
    if a != [] {
      LessIrreflexive(a[1..]);
    }
  }

  lemma {:induction false} LessAsymmetric(a: string, b: string)
    requires Less(a, b)
    ensures !Less(b, a)
    decreases |a|
  {
    if a != [] && b != [] && a[0] == b[0] {
      LessAsymmetric(a[1..], b[1..]);
    }
  }

  lemma {:induction false} LessTransitive(a: string, b: string, c: string)
    requires Less(a, b) && Less(b, c)
    ensures Less(a, c)
    decreases |a|
  {
    if a != [] && b != [] && c != [] && a[0] == b[0] && b[0] == c[0] {
      LessTransitive(a[1..], b[1..], c[1..]);
    }
  }

  lemma {:induction false} LessTotal(a: string, b: string)
    requires a != b
    ensures Less(a, b) || Less(b, a)
    decreases |a|
  {
    if a != [] && b != [] && a[0] == b[0] {
      assert a == [a[0]] + a[1..] && b == [b[0]] + b[1..];
      LessTotal(a[1..], b[1..]);
    }
  }

  /** Strictly ascending: every earlier key sorts before every later one. */
  predicate Ascending(s: seq<string>) {
    forall i, j :: 0 <= i < j < |s| ==> Less(s[i], s[j])
  }

  predicate IsLeast(m: string, keys: set<string>) {
    m in keys && forall k :: k in keys && k != m ==> Less(m, k)
  }

  lemma {:induction false} LeastExists(keys: set<string>)
    requires keys != {}
    ensures exists m :: IsLeast(m, keys)
    decreases |keys|
  {
    var x :| x in keys;
    var rest := keys - {x};
    if rest == {} {
      assert keys == {x};
      assert IsLeast(x, keys);
    } else {
      LeastExists(rest);
      var m :| IsLeast(m, rest);
      if Less(m, x) {
        assert IsLeast(m, keys);
      } else {
        LessTotal(m, x);
        forall k | k in keys && k != x
          ensures Less(x, k)
        {
          if k != m {
            LessTransitive(x, m, k);
          }
        }
        assert IsLeast(x, keys);
      }
    }
  }

  /** The keys of a registry listed in traversal order. */
  ghost function Listing(keys: set<string>): (r: seq<string>)
    ensures Ascending(r)
    ensures forall k :: k in keys <==> k in r
    ensures |r| == |keys|
    decreases |keys|
  {
    if keys == {} then []
    else
      LeastExists(keys);
      var m :| IsLeast(m, keys);
      var rest := Listing(keys - {m});
      PrependLeast(m, keys, rest);
      [m] + rest
  }

  /** The least key followed by an ascending listing of the others is
      ascending. */
  lemma PrependLeast(m: string, keys: set<string>, rest: seq<string>)
    requires IsLeast(m, keys) && Ascending(rest)
    requires forall k :: k in rest <==> k in keys - {m}
    ensures Ascending([m] + rest)
  {
    var r := [m] + rest;
    forall i, j | 0 <= i < j < |r|
      ensures Less(r[i], r[j])
    {
      assert r[j] == rest[j - 1] && rest[j - 1] in rest;
      if i > 0 {
        assert r[i] == rest[i - 1];
      }
    }
  }

  /** Any strictly ascending listing of the keys is THE listing: the traversal
      order depends only on which keys are present, never on when they were
      inserted. */
  lemma {:induction false} AscendingListingUnique(s: seq<string>, t: seq<string>)
    requires Ascending(s) && Ascending(t)
    requires forall k :: k in s <==> k in t
    ensures s == t
    decreases |s|
  {
    if |s| > 0 {
      assert s[0] in s;
    }
    if |t| > 0 {
      assert t[0] in t;
    }
    if s != [] {
      if s[0] != t[0] {
        var i :| 0 <= i < |s| && s[i] == t[0];
        var j :| 0 <= j < |t| && t[j] == s[0];
        assert Less(s[0], s[i]);
        assert Less(t[0], t[j]);
        LessAsymmetric(s[0], t[0]);
        assert false;
      }
      forall k
        ensures k in s[1..] <==> k in t[1..]
      {
        if k in s[1..] {
          var i :| 1 <= i < |s| && s[i] == k;
          assert Less(s[0], k);
          LessIrreflexive(k);
          assert k in t;
        }
        if k in t[1..] {
          var j :| 1 <= j < |t| && t[j] == k;
          assert Less(t[0], k);
          LessIrreflexive(k);
          assert k in s;
        }
      }
      AscendingListingUnique(s[1..], t[1..]);
      assert s == [s[0]] + s[1..] && t == [t[0]] + t[1..];
    }
  }
}

=== FILE: plot_data.dfy ===
/**
 The two plot records of the plotter: a static plot (one x axis shared by any
 number of y series, replaced wholesale on every write) and a dynamic plot (one
 y series kept in a bounded sliding window), with the window's append operation
 and what a run of appends leaves behind.

 Plot values are doubles that are stored and handed to the renderer, never
 computed on; they are modelled as `real`.
 */
module PlotData {

  /** One static plot: its name, the x-axis label, one label per y series, the
      shared x values and the y series. */
  datatype StaticPlotData = StaticPlotData(
    plotName: string,
    xLabel: string,
    yLabels: seq<string>,
    xData: seq<real>,
    yData: seq<seq<real>>)

  /** One dynamic plot: a single y series with its label, the window size that
      bounds the series, and the counter that supplies x when the caller gives
      none. The inherited multi-series fields of the static record are
      shadowed and never used, so they are not part of this record. */
  datatype DynamicPlotData = DynamicPlotData(
    plotName: string,
    xLabel: string,
    yLabel: string,
    xData: seq<real>,
    yData: seq<real>,
    windowSize: nat,
    counter: nat)

  /** A freshly created dynamic plot: labels and window set, nothing stored,
      counter at zero. */
  function NewDynamic(name: string, xLabel: string, yLabel: string, windowSize: nat): (d: DynamicPlotData)
    ensures d.plotName == name && d.xLabel == xLabel && d.yLabel == yLabel
    ensures d.windowSize == windowSize
    ensures d.xData == [] && d.yData == []
    ensures d.counter == 0
  {
    DynamicPlotData(name, xLabel, yLabel, [], [], windowSize, 0)
  }

  /** The last `n` elements of `s` (all of `s` when it is shorter). */
  function Last<T>(s: seq<T>, n: nat): (r: seq<T>)
    ensures |r| == if |s| < n then |s| else n
    ensures r == s[|s| - |r|..]
  {
    if |s| <= n then s else s[|s| - n..]
  }

  /** Push `(x, y)` at the back of both series; when x now holds more than the
      window allows, drop the front element of both series. */
  function AddData(d: DynamicPlotData, x: real, y: real): (r: DynamicPlotData)
    // the new point is at the back, and is kept unless the window is zero
    ensures |r.xData| > 0 ==> r.xData[|r.xData| - 1] == x
    ensures |r.yData| > 0 ==> r.yData[|r.yData| - 1] == y
    ensures d.windowSize > 0 ==> |r.xData| > 0
    // at most one element, the oldest, is evicted, and only on overflow
    ensures |d.xData| <= |r.xData| <= |d.xData| + 1
    ensures |r.xData| == |d.xData| <==> |d.xData| + 1 > d.windowSize
    ensures r.xData == (d.xData + [x])[|d.xData| + 1 - |r.xData|..]
    ensures r.yData == (d.yData + [y])[|d.xData| + 1 - |r.xData|..]
    // both series keep equal length
    ensures |d.xData| == |d.yData| ==> |r.xData| == |r.yData|
    // nothing else changes
    ensures r.plotName == d.plotName && r.xLabel == d.xLabel && r.yLabel == d.yLabel
    ensures r.windowSize == d.windowSize && r.counter == d.counter
  {
    var xs := d.xData + [x];
    var ys := d.yData + [y];
    if |xs| > d.windowSize then d.(xData := xs[1..], yData := ys[1..])
    else d.(xData := xs, yData := ys)
  }

  /** Append `y` at x = the counter, then advance the counter. */
  function AddDataAtCounter(d: DynamicPlotData, y: real): (r: DynamicPlotData)
    ensures r.counter == d.counter + 1
    ensures |r.xData| > 0 ==> r.xData[|r.xData| - 1] == d.counter as real
    ensures r.(counter := d.counter) == AddData(d, d.counter as real, y)
  {
    AddData(d, d.counter as real, y).(counter := d.counter + 1)
  }

  /** A buffer whose two series have equal length within the window. */
  predicate WellFormed(d: DynamicPlotData) {
    |d.xData| == |d.yData| <= d.windowSize
  }

  /** On a well-formed buffer an append keeps exactly the last `windowSize`
      elements of the history extended by the new point. */
  lemma AddDataIsLast(d: DynamicPlotData, x: real, y: real)
    requires WellFormed(d)
    ensures AddData(d, x, y).xData == Last(d.xData + [x], d.windowSize)
    ensures AddData(d, x, y).yData == Last(d.yData + [y], d.windowSize)
    ensures WellFormed(AddData(d, x, y))
  {
  }

  /** Taking the last `n` of a last-`n` extended by one element is the same
      as taking the last `n` of the full history extended by it. */
  lemma LastAppend<T>(s: seq<T>, e: T, n: nat)
    ensures Last(Last(s, n) + [e], n) == Last(s + [e], n)
  {
  }

  function Xs(pts: seq<(real, real)>): (r: seq<real>)
    ensures |r| == |pts|
    ensures forall i :: 0 <= i < |pts| ==> r[i] == pts[i].0
  {
    seq(|pts|, i requires 0 <= i < |pts| => pts[i].0)
  }

  function Ys(pts: seq<(real, real)>): (r: seq<real>)
    ensures |r| == |pts|
    ensures forall i :: 0 <= i < |pts| ==> r[i] == pts[i].1
  {
    seq(|pts|, i requires 0 <= i < |pts| => pts[i].1)
  }

  /** Appending the points one after another, in order. */
  function AddAll(d: DynamicPlotData, pts: seq<(real, real)>): (r: DynamicPlotData)
    ensures r.plotName == d.plotName && r.xLabel == d.xLabel && r.yLabel == d.yLabel
    ensures r.windowSize == d.windowSize && r.counter == d.counter
    decreases |pts|
  {
    if pts == [] then d else AddAll(AddData(d, pts[0].0, pts[0].1), pts[1..])
  }

  /** Sliding window: after appending `pts` to a well-formed buffer, the buffer
      holds the last `windowSize` points of its old contents followed by
      `pts`, in append order. */
  lemma {:induction false} AddAllIsLast(d: DynamicPlotData, pts: seq<(real, real)>)
    requires WellFormed(d)
    ensures AddAll(d, pts).xData == Last(d.xData + Xs(pts), d.windowSize)
    ensures AddAll(d, pts).yData == Last(d.yData + Ys(pts), d.windowSize)
    ensures WellFormed(AddAll(d, pts))
    decreases |pts|
  {
    if pts == [] {
      assert d.xData + Xs(pts) == d.xData;
      assert d.yData + Ys(pts) == d.yData;
    } else {
      var x, y, rest := pts[0].0, pts[0].1, pts[1..];
      AddDataIsLast(d, x, y);
      AddAllIsLast(AddData(d, x, y), rest);
      SplitFirst(pts);
      SlideThrough(d.xData, x, Xs(rest), d.windowSize);
      SlideThrough(d.yData, y, Ys(rest), d.windowSize);
    }
  }

  lemma SplitFirst(pts: seq<(real, real)>)
    requires pts != []
    ensures Xs(pts) == [pts[0].0] + Xs(pts[1..])
    ensures Ys(pts) == [pts[0].1] + Ys(pts[1..])
  {
    var xs, ys := [pts[0].0] + Xs(pts[1..]), [pts[0].1] + Ys(pts[1..]);
    assert forall i :: 0 <= i < |pts| ==> xs[i] == Xs(pts)[i] && ys[i] == Ys(pts)[i];
  }

  /** One append followed by a run of appends, seen through the window. */
  lemma SlideThrough<T>(s: seq<T>, e: T, t: seq<T>, n: nat)
    ensures Last(Last(s + [e], n) + t, n) == Last(s + ([e] + t), n)
  {
    LastOfLast(s + [e], t, n);
    assert s + [e] + t == s + ([e] + t);
  }

  /** The x values `start, start + 1, ..., start + n - 1`. */
  function Count(start: nat, n: nat): (r: seq<real>)
    ensures |r| == n
  {
    seq(n, i requires 0 <= i < n => (start + i) as real)
  }

  /** Element `i` of a count from `start` is `start + i`. */
  lemma CountValues(start: nat, n: nat)
    ensures forall i :: 0 <= i < n ==> Count(start, n)[i] == (start + i) as real
  {
  }

  /** A count is its first value followed by the count from the next one. */
  lemma CountSplit(start: nat, n: nat)
    requires n > 0
    ensures Count(start, n)[0] == start as real
    ensures Count(start, n)[1..] == Count(start + 1, n - 1)
  {
    var a, b := Count(start, n)[1..], Count(start + 1, n - 1);
    assert forall i :: 0 <= i < n - 1 ==> a[i] == b[i];
  }

  /** Appending the values one after another at the counter. */
  function AddAllAtCounter(d: DynamicPlotData, ys: seq<real>): (r: DynamicPlotData)
    ensures r.plotName == d.plotName && r.xLabel == d.xLabel && r.yLabel == d.yLabel
    ensures r.windowSize == d.windowSize
    decreases |ys|
  {
    if ys == [] then d else AddAllAtCounter(AddDataAtCounter(d, ys[0]), ys[1..])
  }

  /** Sliding window of the counter form: the x values are consecutive
      counter values, and the counter advances once per value. */
  lemma AddAllAtCounterIsLast(d: DynamicPlotData, ys: seq<real>)
    requires WellFormed(d)
    ensures AddAllAtCounter(d, ys).xData == Last(d.xData + Count(d.counter, |ys|), d.windowSize)
    ensures AddAllAtCounter(d, ys).yData == Last(d.yData + ys, d.windowSize)
    ensures AddAllAtCounter(d, ys).counter == d.counter + |ys|
    ensures WellFormed(AddAllAtCounter(d, ys))
  {
    AtCounterShape(d, ys);
    AtCounterXs(d, ys);
    AtCounterYs(d, ys);
  }

  lemma {:induction false} AtCounterShape(d: DynamicPlotData, ys: seq<real>)
    requires WellFormed(d)
    ensures AddAllAtCounter(d, ys).counter == d.counter + |ys|
    ensures WellFormed(AddAllAtCounter(d, ys))
    decreases |ys|
  {
    if ys != [] {
      CounterStep(d, ys[0]);
      AtCounterShape(AddDataAtCounter(d, ys[0]), ys[1..]);
    }
  }

  lemma {:induction false} AtCounterXs(d: DynamicPlotData, ys: seq<real>)
    requires WellFormed(d)
    ensures AddAllAtCounter(d, ys).xData == Last(d.xData + Count(d.counter, |ys|), d.windowSize)
    decreases |ys|
  {
    if ys == [] {
      assert d.xData + Count(d.counter, 0) == d.xData;
    } else {
      var d', rest := AddDataAtCounter(d, ys[0]), ys[1..];
      CounterStep(d, ys[0]);
      AtCounterXs(d', rest);
      var r := AddAllAtCounter(d, ys);
      assert r == AddAllAtCounter(d', rest);
      assert |rest| == |ys| - 1 && d'.windowSize == d.windowSize;
      SlideCount(r.xData, d'.xData, d.xData, d.counter, d'.counter, |ys|, d.windowSize);
    }
  }

  lemma {:induction false} AtCounterYs(d: DynamicPlotData, ys: seq<real>)
    requires WellFormed(d)
    ensures AddAllAtCounter(d, ys).yData == Last(d.yData + ys, d.windowSize)
    decreases |ys|
  {
    if ys == [] {
      assert d.yData + ys == d.yData;
    } else {
      var d' := AddDataAtCounter(d, ys[0]);
      CounterStep(d, ys[0]);
      AtCounterYs(d', ys[1..]);
      assert AddAllAtCounter(d, ys) == AddAllAtCounter(d', ys[1..]);
      Slide(AddAllAtCounter(d, ys).yData, d.yData, ys, d.windowSize);
    }
  }

  /** The same step for a run of counter values: `s'` is the window after
      appending counter value `c`, and `c'` the advanced counter. */
  lemma SlideCount(r: seq<real>, s': seq<real>, s: seq<real>, c: nat, c': nat, n: nat, w: nat)
    requires n > 0 && s' == Last(s + [c as real], w) && c' == c + 1
    requires r == Last(s' + Count(c', n - 1), w)
    ensures r == Last(s + Count(c, n), w)
  {
    CountSplit(c, n);
    Slide(r, s, Count(c, n), w);
  }

  /** One step of a run: the window of the first element appended, then of
      the rest appended, is the window of the whole run appended. */
  lemma Slide<T>(r: seq<T>, s: seq<T>, t: seq<T>, n: nat)
    requires t != []
    requires r == Last(Last(s + [t[0]], n) + t[1..], n)
    ensures r == Last(s + t, n)
  {
    SlideThrough(s, t[0], t[1..], n);
    assert [t[0]] + t[1..] == t;
  }

  /** One counter-form append on a well-formed buffer. */
  lemma CounterStep(d: DynamicPlotData, y: real)
    requires WellFormed(d)
    ensures AddDataAtCounter(d, y).xData == Last(d.xData + [d.counter as real], d.windowSize)
    ensures AddDataAtCounter(d, y).yData == Last(d.yData + [y], d.windowSize)
    ensures AddDataAtCounter(d, y).counter == d.counter + 1
    ensures AddDataAtCounter(d, y).windowSize == d.windowSize
    ensures WellFormed(AddDataAtCounter(d, y))
  {
    AddDataIsLast(d, d.counter as real, y);
  }

  /** Trimming a history before extending it and trimming again is the same as
      trimming once at the end. */
  lemma {:induction false} LastOfLast<T>(s: seq<T>, t: seq<T>, n: nat)
    ensures Last(Last(s, n) + t, n) == Last(s + t, n)
    decreases |t|
  {
    if t == [] {
      assert Last(s, n) + t == Last(s, n);
      assert s + t == s;
    } else {
      var init := t[..|t| - 1];
      var e := t[|t| - 1];
      assert t == init + [e];
      LastOfLast(s, init, n);
      assert Last(s, n) + t == (Last(s, n) + init) + [e];
      assert s + t == (s + init) + [e];
      LastAppend(Last(s, n) + init, e, n);
      LastAppend(s + init, e, n);
    }
  }

  /** Starting from an empty buffer with window `W`, after `n` appends the
      buffer holds `min(n, W)` points: the last ones appended, in order. With a
      window of zero it stays empty. */
  lemma FreshWindow(d: DynamicPlotData, pts: seq<(real, real)>)
    requires d.xData == [] && d.yData == []
    ensures |AddAll(d, pts).xData| == if |pts| < d.windowSize then |pts| else d.windowSize
    ensures AddAll(d, pts).xData == Last(Xs(pts), d.windowSize)
    ensures AddAll(d, pts).yData == Last(Ys(pts), d.windowSize)
    ensures d.windowSize == 0 ==> AddAll(d, pts).xData == [] && AddAll(d, pts).yData == []
  {
    AddAllIsLast(d, pts);
    assert d.xData + Xs(pts) == Xs(pts);
    assert d.yData + Ys(pts) == Ys(pts);
  }

  /** Appending exactly `W` points to an empty buffer gives back those points
      in order; one more evicts exactly the oldest. */
  lemma FullWindowRoundTrip(d: DynamicPlotData, pts: seq<(real, real)>, x: real, y: real)
    requires d.xData == [] && d.yData == []
    requires |pts| == d.windowSize > 0
    ensures AddAll(d, pts).xData == Xs(pts) && AddAll(d, pts).yData == Ys(pts)
    ensures AddData(AddAll(d, pts), x, y).xData == Xs(pts)[1..] + [x]
    ensures AddData(AddAll(d, pts), x, y).yData == Ys(pts)[1..] + [y]
  {
    FreshWindow(d, pts);
    FullEvictsOldest(AddAll(d, pts), x, y);
  }

  /** On a full buffer an append drops exactly the front point. */
  lemma FullEvictsOldest(d: DynamicPlotData, x: real, y: real)
    requires |d.xData| == |d.yData| == d.windowSize > 0
    ensures AddData(d, x, y).xData == d.xData[1..] + [x]
    ensures AddData(d, x, y).yData == d.yData[1..] + [y]
  {
    assert (d.xData + [x])[1..] == d.xData[1..] + [x];
    assert (d.yData + [y])[1..] == d.yData[1..] + [y];
  }

  /** When the window is set below the number of points already held, no
      append ever brings the length down: each append pushes one point and
      evicts one, so the buffer keeps its length and slides. */
  lemma {:induction false} ShrunkWindowKeepsLength(d: DynamicPlotData, pts: seq<(real, real)>)
    requires |d.xData| == |d.yData| >= d.windowSize
    ensures |AddAll(d, pts).xData| == |d.xData|
    ensures |AddAll(d, pts).yData| == |d.yData|
    ensures AddAll(d, pts).xData == Last(d.xData + Xs(pts), |d.xData|)
    ensures AddAll(d, pts).yData == Last(d.yData + Ys(pts), |d.yData|)
    decreases |pts|
  {
    if pts == [] {
      assert d.xData + Xs(pts) == d.xData;
      assert d.yData + Ys(pts) == d.yData;
    } else {
      var x, y, rest := pts[0].0, pts[0].1, pts[1..];
      assert AddData(d, x, y).xData == Last(d.xData + [x], |d.xData|);
      assert AddData(d, x, y).yData == Last(d.yData + [y], |d.yData|);
      ShrunkWindowKeepsLength(AddData(d, x, y), rest);
      SplitFirst(pts);
      SlideThrough(d.xData, x, Xs(rest), |d.xData|);
      SlideThrough(d.yData, y, Ys(rest), |d.yData|);
    }
  }
}

=== FILE: plotter.dfy ===
/**
 The plotter's state and the operations producers call on it: two name-keyed
 registries of plot records (static and dynamic), the create-or-update writes
 into them, and the running/paused/freed flags that gate those writes.

 Every operation is a pure function from the plotter before the call to the
 plotter after it. The render thread, the pause busy-wait and the mutexes are
 not part of this model: a write is described as it behaves once the pause gate
 has let it through, with no other thread touching the plotter meanwhile.
 */
module Plotter {
  import opened PlotData
  import Decimal

  datatype Option<T> = None | Some(value: T)

  /** The data error raised when the y series at `index` does not have as many
      values as the x axis. */
  datatype ShapeError = ShapeError(index: nat)

  /** The text carried by the raised error. */
  function Message(e: ShapeError): (m: string)
    ensures
      var prefix, suffix := "[ImPlotter] Exception: x_data and y_data[", "] have different sizes";
      && |prefix| + |suffix| < |m|
      && m[..|prefix|] == prefix
      && m[|m| - |suffix|..] == suffix
      && Decimal.AllDigits(m[|prefix|..|m| - |suffix|])
      && Decimal.Parse(m[|prefix|..|m| - |suffix|]) == e.index
      && (|m| - |suffix| - |prefix| > 1 ==> m[|prefix|] != '0')
  {
    var prefix, suffix := "[ImPlotter] Exception: x_data and y_data[", "] have different sizes";
    var digits := Decimal.ToString(e.index);
    Decimal.ParseToString(e.index);
    Framed(prefix, digits, suffix);
    prefix + digits + suffix
  }

  /** The three parts of `a + b + c` can be cut back out of it. */
  lemma Framed<T>(a: seq<T>, b: seq<T>, c: seq<T>)
    ensures var m := a + b + c;
      && m[..|a|] == a && m[|m| - |c|..] == c && m[|a|..|m| - |c|] == b
  {
  }

  /** The message identifies the offending series: two errors with the same
      text name the same index. */
  lemma MessageNamesIndex(e: ShapeError, e': ShapeError)
    requires Message(e) == Message(e')
    ensures e == e'
  {
  }

  /** The whole plotter: both registries, the three lifecycle flags, and the
      construction parameters that the render loop would use. */
  datatype ImPlotter = ImPlotter(
    staticPlots: map<string, StaticPlotData>,
    dynamicPlots: map<string, DynamicPlotData>,
    running: bool,
    paused: bool,
    glfwFreed: bool,
    useMutex: bool,
    windowWidth: int,
    windowHeight: int)

  /** What a static write leaves behind: the plotter, and the data error it
      raised, if any. The plotter is the one after the write even when an
      error is raised. */
  datatype Written = Written(plotter: ImPlotter, error: Option<ShapeError>)

  /** Every record is filed under its own name, and the two series of every
      dynamic record have equal length. */
  predicate Valid(p: ImPlotter) {
    && (forall n :: n in p.staticPlots ==> p.staticPlots[n].plotName == n)
    && (forall n :: n in p.dynamicPlots ==>
          p.dynamicPlots[n].plotName == n && |p.dynamicPlots[n].xData| == |p.dynamicPlots[n].yData|)
  }

  /** Only the flags differ between two plotters. */
  predicate SameData(p: ImPlotter, q: ImPlotter) {
    && q.staticPlots == p.staticPlots
    && q.dynamicPlots == p.dynamicPlots
    && q.useMutex == p.useMutex
    && q.windowWidth == p.windowWidth
    && q.windowHeight == p.windowHeight
  }

  /** Only the registries differ between two plotters. */
  predicate SameFlags(p: ImPlotter, q: ImPlotter) {
    && q.running == p.running
    && q.paused == p.paused
    && q.glfwFreed == p.glfwFreed
    && q.useMutex == p.useMutex
    && q.windowWidth == p.windowWidth
    && q.windowHeight == p.windowHeight
  }

  /** A freshly constructed plotter: both registries empty, not running, not
      paused, renderer not freed. */
  function NewPlotter(width: int := 1280, height: int := 720, useMutex: bool := true): (p: ImPlotter)
    ensures p.staticPlots == map[] && p.dynamicPlots == map[]
    ensures !p.running && !p.paused && !p.glfwFreed
    ensures p.useMutex == useMutex && p.windowWidth == width && p.windowHeight == height
    ensures Valid(p)
  {
    ImPlotter(map[], map[], false, false, false, useMutex, width, height)
  }

  /** Starting the render loop marks the plotter as running. Nothing checks
      whether the renderer was already torn down. */
  function RunMainLoop(p: ImPlotter): (q: ImPlotter)
    ensures q.running
    ensures q.paused == p.paused && q.glfwFreed == p.glfwFreed
    ensures SameData(p, q)
  {
    p.(running := true)
  }

  /** Asking the render loop to stop clears the running flag. */
  function StopMainLoop(p: ImPlotter): (q: ImPlotter)
    ensures !q.running
    ensures q.paused == p.paused && q.glfwFreed == p.glfwFreed
    ensures SameData(p, q)
  {
    p.(running := false)
  }

  /** One render frame that sees the space key down flips the pause flag.
      The key is read once per frame, so a key held down across several
      frames flips it once per frame. */
  function TogglePause(p: ImPlotter): (q: ImPlotter)
    ensures q.paused != p.paused
    ensures q.running == p.running && q.glfwFreed == p.glfwFreed
    ensures SameData(p, q)
  {
    p.(paused := !p.paused)
  }

  /** The render loop's last act after tearing the renderer down: not running
      and freed. */
  function MainLoopExit(p: ImPlotter): (q: ImPlotter)
    ensures !q.running && q.glfwFreed
    ensures q.paused == p.paused
    ensures SameData(p, q)
  {
    p.(running := false, glfwFreed := true)
  }

  /** The first series at or after `from` whose length differs from the x
      axis, scanning in series order. */
  function FirstMismatch(xData: seq<real>, yData: seq<seq<real>>, from: nat := 0): (r: Option<nat>)
    requires from <= |yData|
    ensures r.None? <==> forall i :: from <= i < |yData| ==> |yData[i]| == |xData|
    ensures r.Some? ==> from <= r.value < |yData| && |yData[r.value]| != |xData|
    ensures r.Some? ==> forall i :: from <= i < r.value ==> |yData[i]| == |xData|
    decreases |yData| - from
  {
    if from == |yData| then None
    else if |yData[from]| != |xData| then Some(from)
    else FirstMismatch(xData, yData, from + 1)
  }

  /** Create or update a static plot. On a new name the record is created
      with all the supplied fields and the series shapes are then checked,
      raising an error for the first series whose length differs from the x
      axis; the record stays registered either way. On an existing name only
      the x and y data are replaced, with no shape check. When the plotter is
      not running nothing happens. */
  function AddStaticPlot(p: ImPlotter, name: string, xData: seq<real>, yData: seq<seq<real>>,
                         xLabel: string, yLabels: seq<string>): (w: Written)
    // the running gate
    ensures !p.running ==> w == Written(p, None)
    // one record under `name`, other records and the dynamic registry untouched
    ensures p.running ==> name in w.plotter.staticPlots
    ensures p.running ==> w.plotter.staticPlots == p.staticPlots[name := w.plotter.staticPlots[name]]
    ensures w.plotter.dynamicPlots == p.dynamicPlots && SameFlags(p, w.plotter)
    // a new name: every field as supplied, error at the first bad series
    ensures p.running && name !in p.staticPlots ==>
      w.plotter.staticPlots[name] == StaticPlotData(name, xLabel, yLabels, xData, yData)
    ensures p.running && name !in p.staticPlots ==>
      (w.error.None? <==> forall i :: 0 <= i < |yData| ==> |yData[i]| == |xData|)
    ensures p.running && name !in p.staticPlots && w.error.Some? ==>
      var i := w.error.value.index;
      i < |yData| && |yData[i]| != |xData| && forall j :: 0 <= j < i ==> |yData[j]| == |xData|
    // an existing name: data replaced, name and labels kept, no error
    ensures p.running && name in p.staticPlots ==>
      var before := p.staticPlots[name];
      var after := w.plotter.staticPlots[name];
      && after.xData == xData && after.yData == yData
      && after.plotName == before.plotName && after.xLabel == before.xLabel && after.yLabels == before.yLabels
      && w.error.None?
  {
    if !p.running then Written(p, None)
    else if name !in p.staticPlots then
      var q := p.(staticPlots := p.staticPlots[name := StaticPlotData(name, xLabel, yLabels, xData, yData)]);
      match FirstMismatch(xData, yData)
      case None => Written(q, None)
      case Some(i) => Written(q, Some(ShapeError(i)))
    else
      var before := p.staticPlots[name];
      Written(p.(staticPlots := p.staticPlots[name := before.(xData := xData, yData := yData)]), None)
  }

  /** Create or update a static plot with a single y series and its label. */
  function AddStaticPlotSingle(p: ImPlotter, name: string, xData: seq<real>, yData: seq<real>,
                               xLabel: string := "x", yLabel: string := "y"): (w: Written)
    ensures !p.running ==> w == Written(p, None)
    ensures p.running ==> name in w.plotter.staticPlots
    ensures p.running && name !in p.staticPlots ==>
      && w.plotter.staticPlots[name] == StaticPlotData(name, xLabel, [yLabel], xData, [yData])
      && (w.error.None? <==> |yData| == |xData|)
      && (w.error.Some? ==> w.error.value.index == 0)
    ensures p.running ==> w.plotter.staticPlots == p.staticPlots[name := w.plotter.staticPlots[name]]
    ensures w.plotter.dynamicPlots == p.dynamicPlots && SameFlags(p, w.plotter)
    ensures p.running && name in p.staticPlots ==>
      var before := p.staticPlots[name];
      var after := w.plotter.staticPlots[name];
      && after.yData == [yData] && after.xData == xData
      && after.plotName == before.plotName && after.xLabel == before.xLabel && after.yLabels == before.yLabels
      && w.error.None?
  {
    AddStaticPlot(p, name, xData, [yData], xLabel, [yLabel])
  }

  /** The record an append goes to: the existing one with its window size set
      to the requested one, or a new record carrying the supplied labels. */
  function Target(p: ImPlotter, name: string, windowSize: nat, xLabel: string, yLabel: string): (d: DynamicPlotData)
    ensures d.windowSize == windowSize
    ensures name in p.dynamicPlots ==>
      d == p.dynamicPlots[name].(windowSize := windowSize)
    ensures name !in p.dynamicPlots ==>
      d.plotName == name && d.xLabel == xLabel && d.yLabel == yLabel
      && d.xData == [] && d.yData == [] && d.counter == 0
  {
    if name in p.dynamicPlots then p.dynamicPlots[name].(windowSize := windowSize)
    else NewDynamic(name, xLabel, yLabel, windowSize)
  }

  /** Append the point `(x, y)` to a dynamic plot, creating it on first use.
      On an existing name the window size is updated and the labels are kept.
      When the plotter is not running nothing happens. */
  function AddDynamicPlot(p: ImPlotter, name: string, x: real, y: real, windowSize: nat,
                          xLabel: string := "x", yLabel: string := "y"): (q: ImPlotter)
    ensures !p.running ==> q == p
    ensures p.running ==> name in q.dynamicPlots
    ensures p.running ==> q.dynamicPlots == p.dynamicPlots[name := q.dynamicPlots[name]]
    ensures q.staticPlots == p.staticPlots && SameFlags(p, q)
    ensures p.running ==>
      var d := q.dynamicPlots[name];
      && d.windowSize == windowSize
      && d == AddData(Target(p, name, windowSize, xLabel, yLabel), x, y)
      && (name in p.dynamicPlots ==>
            var before := p.dynamicPlots[name];
            d.plotName == before.plotName && d.xLabel == before.xLabel && d.yLabel == before.yLabel
            && d.counter == before.counter)
      && (name !in p.dynamicPlots ==>
            d.plotName == name && d.xLabel == xLabel && d.yLabel == yLabel && d.counter == 0)
      && (windowSize > 0 ==> |d.xData| > 0 && d.xData[|d.xData| - 1] == x)
      && (|d.yData| > 0 ==> d.yData[|d.yData| - 1] == y)
  {
    if !p.running then p
    else
      var d := AddData(Target(p, name, windowSize, xLabel, yLabel), x, y);
      var q := p.(dynamicPlots := p.dynamicPlots[name := d]);
      assert q.dynamicPlots[name] == d;
      q
  }

  /** Append `y` to a dynamic plot at x = the plot's counter, then advance the
      counter; the plot is created on first use with the counter at zero. */
  function AddDynamicPlotAutoX(p: ImPlotter, name: string, y: real, windowSize: nat,
                               xLabel: string := "x", yLabel: string := "y"): (q: ImPlotter)
    ensures !p.running ==> q == p
    ensures p.running ==> name in q.dynamicPlots
    ensures p.running ==> q.dynamicPlots == p.dynamicPlots[name := q.dynamicPlots[name]]
    ensures q.staticPlots == p.staticPlots && SameFlags(p, q)
    ensures p.running ==>
      var t := Target(p, name, windowSize, xLabel, yLabel);
      var d := q.dynamicPlots[name];
      && d.counter == t.counter + 1
      && d == AddDataAtCounter(t, y)
      && (name in p.dynamicPlots ==> d.counter == p.dynamicPlots[name].counter + 1)
      && (name !in p.dynamicPlots ==> d.counter == 1)
  {
    if !p.running then p
    else
      var d := AddDataAtCounter(Target(p, name, windowSize, xLabel, yLabel), y);
      var q := p.(dynamicPlots := p.dynamicPlots[name := d]);
      assert q.dynamicPlots[name] == d;
      q
  }
}

=== FILE: plotter_properties.dfy ===
/**
 Properties of the plotter that relate several calls: the invariant every write
 keeps, what a run of appends to one dynamic plot leaves, how repeated static
 writes combine, the running gate over the lifecycle, and the order in which the
 render loop visits the plots.
 */
module PlotterProperties {
  import opened PlotData
  import opened Plotter
  import KeyOrder

  // ---------------------------------------------------------------------------
  // The registry invariant

  lemma StaticWritePreservesValid(p: ImPlotter, name: string, xData: seq<real>, yData: seq<seq<real>>,
                                  xLabel: string, yLabels: seq<string>)
    requires Valid(p)
    ensures Valid(AddStaticPlot(p, name, xData, yData, xLabel, yLabels).plotter)
  {
    var q := AddStaticPlot(p, name, xData, yData, xLabel, yLabels).plotter;
    forall n | n in q.staticPlots
      ensures q.staticPlots[n].plotName == n
    {
      if n != name {
        assert q.staticPlots[n] == p.staticPlots[n];
      }
    }
  }

  lemma DynamicWritePreservesValid(p: ImPlotter, name: string, x: real, y: real, windowSize: nat,
                                   xLabel: string, yLabel: string)
    requires Valid(p)
    ensures Valid(AddDynamicPlot(p, name, x, y, windowSize, xLabel, yLabel))
  {
    var q := AddDynamicPlot(p, name, x, y, windowSize, xLabel, yLabel);
    forall n | n in q.dynamicPlots
      ensures q.dynamicPlots[n].plotName == n
      ensures |q.dynamicPlots[n].xData| == |q.dynamicPlots[n].yData|
    {
      if n != name {
        assert q.dynamicPlots[n] == p.dynamicPlots[n];
      }
    }
  }

  lemma AutoXWritePreservesValid(p: ImPlotter, name: string, y: real, windowSize: nat,
                                 xLabel: string, yLabel: string)
    requires Valid(p)
    ensures Valid(AddDynamicPlotAutoX(p, name, y, windowSize, xLabel, yLabel))
  {
    var q := AddDynamicPlotAutoX(p, name, y, windowSize, xLabel, yLabel);
    forall n | n in q.dynamicPlots
      ensures q.dynamicPlots[n].plotName == n
      ensures |q.dynamicPlots[n].xData| == |q.dynamicPlots[n].yData|
    {
      if n != name {
        assert q.dynamicPlots[n] == p.dynamicPlots[n];
      }
    }
  }

  // ---------------------------------------------------------------------------
  // The running gate over the lifecycle

  /** Before the render loop is started every write is dropped, whatever the
      plotter was constructed with. */
  lemma FreshPlotterDropsWrites(width: int, height: int, useMutex: bool, name: string,
                                xData: seq<real>, yData: seq<seq<real>>, ys: seq<real>, x: real, y: real,
                                windowSize: nat, xLabel: string, yLabels: seq<string>, yLabel: string)
    ensures var p := NewPlotter(width, height, useMutex);
      AddStaticPlot(p, name, xData, yData, xLabel, yLabels) == Written(p, None)
    ensures var p := NewPlotter(width, height, useMutex);
      AddStaticPlotSingle(p, name, xData, ys, xLabel, yLabel) == Written(p, None)
    ensures var p := NewPlotter(width, height, useMutex);
      AddDynamicPlot(p, name, x, y, windowSize, xLabel, yLabel) == p
    ensures var p := NewPlotter(width, height, useMutex);
      AddDynamicPlotAutoX(p, name, y, windowSize, xLabel, yLabel) == p
  {
  }

  /** After a stop request, and after the render loop has exited, every
      write is dropped. */
  lemma StoppedPlotterDropsWrites(p: ImPlotter, name: string, xData: seq<real>, yData: seq<seq<real>>,
                                  x: real, y: real, windowSize: nat,
                                  xLabel: string, yLabels: seq<string>, yLabel: string, series: seq<real>)
    ensures AddStaticPlot(StopMainLoop(p), name, xData, yData, xLabel, yLabels) == Written(StopMainLoop(p), None)
    ensures AddStaticPlot(MainLoopExit(p), name, xData, yData, xLabel, yLabels) == Written(MainLoopExit(p), None)
    ensures AddStaticPlotSingle(StopMainLoop(p), name, xData, series, xLabel, yLabel) == Written(StopMainLoop(p), None)
    ensures AddStaticPlotSingle(MainLoopExit(p), name, xData, series, xLabel, yLabel) == Written(MainLoopExit(p), None)
    ensures AddDynamicPlot(StopMainLoop(p), name, x, y, windowSize, xLabel, yLabel) == StopMainLoop(p)
    ensures AddDynamicPlot(MainLoopExit(p), name, x, y, windowSize, xLabel, yLabel) == MainLoopExit(p)
    ensures AddDynamicPlotAutoX(StopMainLoop(p), name, y, windowSize, xLabel, yLabel) == StopMainLoop(p)
    ensures AddDynamicPlotAutoX(MainLoopExit(p), name, y, windowSize, xLabel, yLabel) == MainLoopExit(p)
  {
  }

  /** Starting again after the render loop has exited is not refused: the
      plotter runs with its renderer already freed, and an append has its
      full effect on the plot it names. */
  lemma RestartAfterExitAcceptsWrites(p: ImPlotter, name: string, x: real, y: real, windowSize: nat)
    ensures RunMainLoop(MainLoopExit(p)).running && RunMainLoop(MainLoopExit(p)).glfwFreed
    ensures var r := RunMainLoop(MainLoopExit(p));
      AddDynamicPlot(r, name, x, y, windowSize)
      == r.(dynamicPlots := r.dynamicPlots[name := AddData(Target(r, name, windowSize, "x", "y"), x, y)])
  {
  }

  // ---------------------------------------------------------------------------
  // Static writes

  /** A second write to the same name replaces the data of the first and keeps
      the labels the first write established (or that were already there);
      it never raises. With locking on this needs the first write to have
      raised nothing: a raised shape error leaves the plot's lock held, and
      the second write would wait for it for ever. */
  lemma StaticSecondWriteKeepsLabels(p: ImPlotter, name: string,
                                     xs1: seq<real>, ys1: seq<seq<real>>, xl1: string, yl1: seq<string>,
                                     xs2: seq<real>, ys2: seq<seq<real>>, xl2: string, yl2: seq<string>)
    requires p.running
    requires !p.useMutex || AddStaticPlot(p, name, xs1, ys1, xl1, yl1).error.None?
    ensures
      var first := AddStaticPlot(p, name, xs1, ys1, xl1, yl1).plotter;
      var second := AddStaticPlot(first, name, xs2, ys2, xl2, yl2);
      && second.error.None?
      && second.plotter == AddStaticPlot(p, name, xs2, ys2, xl1, yl1).plotter
  {
    var first := AddStaticPlot(p, name, xs1, ys1, xl1, yl1).plotter;
    var second := AddStaticPlot(first, name, xs2, ys2, xl2, yl2).plotter;
    var direct := AddStaticPlot(p, name, xs2, ys2, xl1, yl1).plotter;
    assert second.staticPlots[name] == direct.staticPlots[name];
    assert second.staticPlots == direct.staticPlots;
  }

  /** A badly shaped first write still registers the plot, and a write after
      it goes through without error and replaces the data in full. This holds
      only with locking off: with locking on, the raised error leaves the new
      plot's lock held, and the later write would wait for it for ever. */
  lemma BadShapeThenRepair(p: ImPlotter, name: string,
                           xs1: seq<real>, ys1: seq<seq<real>>, xLabel: string, yLabels: seq<string>,
                           xs2: seq<real>, ys2: seq<seq<real>>, i: nat)
    requires p.running && !p.useMutex && name !in p.staticPlots
    requires i < |ys1| && |ys1[i]| != |xs1| && forall j :: 0 <= j < i ==> |ys1[j]| == |xs1|
    ensures
      var first := AddStaticPlot(p, name, xs1, ys1, xLabel, yLabels);
      var second := AddStaticPlot(first.plotter, name, xs2, ys2, xLabel, yLabels);
      && first.error == Some(ShapeError(i))
      && first.plotter.staticPlots[name] == StaticPlotData(name, xLabel, yLabels, xs1, ys1)
      && second.error.None?
      && second.plotter.staticPlots[name] == StaticPlotData(name, xLabel, yLabels, xs2, ys2)
  {
    var first := AddStaticPlot(p, name, xs1, ys1, xLabel, yLabels);
    var k := first.error.value.index;
    assert |ys1[k]| != |xs1| && |ys1[i]| != |xs1|;
  }

  /** Only the x and y series lengths are compared: a write with fewer labels
      than series is accepted without error whenever the series fit the x
      axis, so the label list can be too short for the series it names. */
  lemma LabelCountUnchecked(p: ImPlotter, name: string, xData: seq<real>, yData: seq<seq<real>>,
                            xLabel: string, yLabels: seq<string>)
    requires p.running && name !in p.staticPlots
    requires |yLabels| < |yData|
    requires forall i :: 0 <= i < |yData| ==> |yData[i]| == |xData|
    ensures
      var w := AddStaticPlot(p, name, xData, yData, xLabel, yLabels);
      w.error.None? && |w.plotter.staticPlots[name].yLabels| < |w.plotter.staticPlots[name].yData|
  {
  }

  /** The labels play no part in the shape check: two writes that differ only
      in their labels raise the same error and store the same data. */
  lemma ErrorIgnoresLabels(p: ImPlotter, name: string, xData: seq<real>, yData: seq<seq<real>>,
                           xLabel: string, yLabels1: seq<string>, yLabels2: seq<string>)
    ensures
      var w1 := AddStaticPlot(p, name, xData, yData, xLabel, yLabels1);
      var w2 := AddStaticPlot(p, name, xData, yData, xLabel, yLabels2);
      && w1.error == w2.error
      && (p.running ==>
            w1.plotter.staticPlots[name].xData == w2.plotter.staticPlots[name].xData
            && w1.plotter.staticPlots[name].yData == w2.plotter.staticPlots[name].yData)
  {
  }

  /** A caller that omits the labels gets "x" for the x axis and "y" for the
      series, in the single-series static write and in both appends. */
  lemma OmittedLabelsAreXAndY(p: ImPlotter, name: string, xData: seq<real>, yData: seq<real>,
                              x: real, y: real, windowSize: nat)
    requires p.running
    ensures name !in p.staticPlots ==>
      var s := AddStaticPlotSingle(p, name, xData, yData).plotter.staticPlots[name];
      s.xLabel == "x" && s.yLabels == ["y"]
    ensures name !in p.dynamicPlots ==>
      var d := AddDynamicPlot(p, name, x, y, windowSize).dynamicPlots[name];
      d.xLabel == "x" && d.yLabel == "y"
    ensures name !in p.dynamicPlots ==>
      var d := AddDynamicPlotAutoX(p, name, y, windowSize).dynamicPlots[name];
      d.xLabel == "x" && d.yLabel == "y"
  {
  }

  /** Each registry holds at most one record per name: a write adds a name
      only when it was absent, and never more than one. */
  lemma DynamicWriteAddsAtMostOneName(p: ImPlotter, name: string, x: real, y: real, windowSize: nat)
    requires p.running
    ensures |AddDynamicPlot(p, name, x, y, windowSize).dynamicPlots|
            == |p.dynamicPlots| + (if name in p.dynamicPlots then 0 else 1)
  {
    var q := AddDynamicPlot(p, name, x, y, windowSize);
    UpdateSize(p.dynamicPlots, name, q.dynamicPlots[name]);
  }

  lemma StaticWriteAddsAtMostOneName(p: ImPlotter, name: string, xData: seq<real>, yData: seq<seq<real>>,
                                     xLabel: string, yLabels: seq<string>)
    requires p.running
    ensures |AddStaticPlot(p, name, xData, yData, xLabel, yLabels).plotter.staticPlots|
            == |p.staticPlots| + (if name in p.staticPlots then 0 else 1)
  {
    var q := AddStaticPlot(p, name, xData, yData, xLabel, yLabels).plotter;
    UpdateSize(p.staticPlots, name, q.staticPlots[name]);
  }

  lemma UpdateSize<K, V>(m: map<K, V>, k: K, v: V)
    ensures |m[k := v]| == |m| + (if k in m then 0 else 1)
  {
    if k in m {
      assert m[k := v].Keys == m.Keys;
    } else {
      assert m[k := v].Keys == m.Keys + {k};
    }
  }

  /** The two registries are separate namespaces: a static and a dynamic plot
      may share a name, and writing one never touches the other. */
  lemma SharedNameInBothRegistries(p: ImPlotter, name: string, xData: seq<real>, yData: seq<seq<real>>,
                                   xLabel: string, yLabels: seq<string>, x: real, y: real, windowSize: nat)
    requires p.running
    ensures
      var s := AddStaticPlot(p, name, xData, yData, xLabel, yLabels).plotter;
      var q := AddDynamicPlot(s, name, x, y, windowSize);
      && name in q.staticPlots && name in q.dynamicPlots
      && q.staticPlots[name] == s.staticPlots[name]
  {
  }

  // ---------------------------------------------------------------------------
  // Runs of appends to one dynamic plot

  /** Appending the points in order, each with the same window size and
      labels. */
  function AppendRun(p: ImPlotter, name: string, pts: seq<(real, real)>, windowSize: nat,
                     xLabel: string, yLabel: string): (q: ImPlotter)
    ensures q.staticPlots == p.staticPlots && SameFlags(p, q)
    decreases |pts|
  {
    if pts == [] then p
    else AppendRun(AddDynamicPlot(p, name, pts[0].0, pts[0].1, windowSize, xLabel, yLabel),
                   name, pts[1..], windowSize, xLabel, yLabel)
  }

  /** Appending the values in order through the auto-x form. */
  function AutoXRun(p: ImPlotter, name: string, ys: seq<real>, windowSize: nat,
                    xLabel: string, yLabel: string): (q: ImPlotter)
    ensures q.staticPlots == p.staticPlots && SameFlags(p, q)
    decreases |ys|
  {
    if ys == [] then p
    else AutoXRun(AddDynamicPlotAutoX(p, name, ys[0], windowSize, xLabel, yLabel),
                  name, ys[1..], windowSize, xLabel, yLabel)
  }

  /** A run of appends to one plot is the buffer-level run on the plot it
      goes to; no other plot is touched. */
  lemma {:induction false} AppendRunIsAddAll(p: ImPlotter, name: string, pts: seq<(real, real)>, windowSize: nat,
                                             xLabel: string, yLabel: string)
    requires p.running && pts != []
    ensures
      var q := AppendRun(p, name, pts, windowSize, xLabel, yLabel);
      && name in q.dynamicPlots
      && q.dynamicPlots[name] == AddAll(Target(p, name, windowSize, xLabel, yLabel), pts)
      && (forall n :: n != name ==> (n in q.dynamicPlots <==> n in p.dynamicPlots))
      && (forall n :: n != name && n in p.dynamicPlots ==> q.dynamicPlots[n] == p.dynamicPlots[n])
    decreases |pts|
  {
    var t := Target(p, name, windowSize, xLabel, yLabel);
    var x, y, rest := pts[0].0, pts[0].1, pts[1..];
    var p' := AddDynamicPlot(p, name, x, y, windowSize, xLabel, yLabel);
    assert Target(p', name, windowSize, xLabel, yLabel) == AddData(t, x, y);
    if rest != [] {
      AppendRunIsAddAll(p', name, rest, windowSize, xLabel, yLabel);
    }
  }

  /** A run of appends to one plot, on a running plotter, leaves the last
      `windowSize` points of the plot's earlier contents followed by the run,
      and keeps the plot's labels and counter. */
  lemma AppendRunWindow(p: ImPlotter, name: string, pts: seq<(real, real)>, windowSize: nat,
                        xLabel: string, yLabel: string)
    requires p.running && pts != []
    requires WellFormed(Target(p, name, windowSize, xLabel, yLabel))
    ensures
      var t := Target(p, name, windowSize, xLabel, yLabel);
      var q := AppendRun(p, name, pts, windowSize, xLabel, yLabel);
      && name in q.dynamicPlots
      && q.dynamicPlots[name].xData == Last(t.xData + Xs(pts), windowSize)
      && q.dynamicPlots[name].yData == Last(t.yData + Ys(pts), windowSize)
      && q.dynamicPlots[name].windowSize == windowSize
      && q.dynamicPlots[name].plotName == t.plotName
      && q.dynamicPlots[name].xLabel == t.xLabel && q.dynamicPlots[name].yLabel == t.yLabel
      && q.dynamicPlots[name].counter == t.counter
  {
    AppendRunIsAddAll(p, name, pts, windowSize, xLabel, yLabel);
    AddAllIsLast(Target(p, name, windowSize, xLabel, yLabel), pts);
  }

  /** A run of auto-x appends to one plot is the counter-form run on the
      plot it goes to; no other plot is touched. */
  lemma {:induction false} AutoXRunIsCounterRun(p: ImPlotter, name: string, ys: seq<real>, windowSize: nat,
                                                xLabel: string, yLabel: string)
    requires p.running && ys != []
    ensures
      var q := AutoXRun(p, name, ys, windowSize, xLabel, yLabel);
      && name in q.dynamicPlots
      && q.dynamicPlots[name] == AddAllAtCounter(Target(p, name, windowSize, xLabel, yLabel), ys)
      && (forall n :: n != name ==> (n in q.dynamicPlots <==> n in p.dynamicPlots))
      && (forall n :: n != name && n in p.dynamicPlots ==> q.dynamicPlots[n] == p.dynamicPlots[n])
    decreases |ys|
  {
    var t := Target(p, name, windowSize, xLabel, yLabel);
    var y, rest := ys[0], ys[1..];
    var p' := AddDynamicPlotAutoX(p, name, y, windowSize, xLabel, yLabel);
    assert Target(p', name, windowSize, xLabel, yLabel) == AddDataAtCounter(t, y);
    if rest != [] {
      AutoXRunIsCounterRun(p', name, rest, windowSize, xLabel, yLabel);
    }
  }

  /** The same for the auto-x form: the x values are the plot's counter
      values in order, and the counter advances by the length of the run. */
  lemma AutoXRunWindow(p: ImPlotter, name: string, ys: seq<real>, windowSize: nat,
                       xLabel: string, yLabel: string)
    requires p.running && ys != []
    requires WellFormed(Target(p, name, windowSize, xLabel, yLabel))
    ensures
      var t := Target(p, name, windowSize, xLabel, yLabel);
      var q := AutoXRun(p, name, ys, windowSize, xLabel, yLabel);
      && name in q.dynamicPlots
      && q.dynamicPlots[name].xData == Last(t.xData + Count(t.counter, |ys|), windowSize)
      && q.dynamicPlots[name].yData == Last(t.yData + ys, windowSize)
      && q.dynamicPlots[name].counter == t.counter + |ys|
      && q.dynamicPlots[name].windowSize == windowSize
      && q.dynamicPlots[name].plotName == t.plotName
      && q.dynamicPlots[name].xLabel == t.xLabel && q.dynamicPlots[name].yLabel == t.yLabel
  {
    AutoXRunIsCounterRun(p, name, ys, windowSize, xLabel, yLabel);
    AddAllAtCounterIsLast(Target(p, name, windowSize, xLabel, yLabel), ys);
  }

  /** Appending to a new name with a fixed window `W`: after `n` appends the
      plot holds `min(n, W)` points, the last ones appended, in order, under
      the labels of the first call. */
  lemma NewPlotWindow(p: ImPlotter, name: string, pts: seq<(real, real)>, windowSize: nat,
                      xLabel: string, yLabel: string)
    requires p.running && name !in p.dynamicPlots && pts != []
    ensures
      var q := AppendRun(p, name, pts, windowSize, xLabel, yLabel);
      name in q.dynamicPlots &&
      var d := q.dynamicPlots[name];
      && |d.xData| == |d.yData| == (if |pts| < windowSize then |pts| else windowSize)
      && d.xData == Last(Xs(pts), windowSize)
      && d.yData == Last(Ys(pts), windowSize)
      && d.xLabel == xLabel && d.yLabel == yLabel
  {
    AppendRunWindow(p, name, pts, windowSize, xLabel, yLabel);
    assert [] + Xs(pts) == Xs(pts);
    assert [] + Ys(pts) == Ys(pts);
  }

  /** Successive auto-x appends to a new name are placed at x = 0, 1, 2, ...
      in call order; once more than `W` have been made the window shows the
      latest `W` of them. */
  lemma AutoXCountsFromZero(p: ImPlotter, name: string, ys: seq<real>, windowSize: nat,
                            xLabel: string, yLabel: string)
    requires p.running && name !in p.dynamicPlots && ys != []
    ensures
      var q := AutoXRun(p, name, ys, windowSize, xLabel, yLabel);
      name in q.dynamicPlots &&
      var d := q.dynamicPlots[name];
      && d.counter == |ys|
      && d.xData == Last(Count(0, |ys|), windowSize)
      && d.yData == Last(ys, windowSize)
      && (|ys| <= windowSize ==> forall i :: 0 <= i < |ys| ==> d.xData[i] == i as real)
  {
    AutoXRunWindow(p, name, ys, windowSize, xLabel, yLabel);
    CountValues(0, |ys|);
    assert [] + Count(0, |ys|) == Count(0, |ys|);
    assert [] + ys == ys;
  }

  /** Setting a window smaller than what a plot already holds does not trim
      it: the append evicts one point, so the length stays where it was. */
  lemma ShrinkDoesNotTrim(p: ImPlotter, name: string, x: real, y: real, windowSize: nat)
    requires p.running && name in p.dynamicPlots
    requires |p.dynamicPlots[name].xData| >= windowSize
    ensures |AddDynamicPlot(p, name, x, y, windowSize).dynamicPlots[name].xData|
            == |p.dynamicPlots[name].xData|
  {
  }

  // ---------------------------------------------------------------------------
  // Traversal order of the registries

  /** The static plot names in the order the render loop visits them. */
  ghost function StaticDrawOrder(p: ImPlotter): (r: seq<string>)
    ensures KeyOrder.Ascending(r)
    ensures forall n :: n in r <==> n in p.staticPlots
  {
    KeyOrder.Listing(p.staticPlots.Keys)
  }

  /** The dynamic plot names in the order the render loop visits them. */
  ghost function DynamicDrawOrder(p: ImPlotter): (r: seq<string>)
    ensures KeyOrder.Ascending(r)
    ensures forall n :: n in r <==> n in p.dynamicPlots
  {
    KeyOrder.Listing(p.dynamicPlots.Keys)
  }

  /** Two appends to different names on a running plotter each go to their
      own plot, as if made separately on the original plotter. */
  lemma TwoAppends(p: ImPlotter,
                   a: string, xa: real, ya: real, wa: nat, xla: string, yla: string,
                   b: string, xb: real, yb: real, wb: nat, xlb: string, ylb: string)
    requires p.running && a != b
    ensures
      AddDynamicPlot(AddDynamicPlot(p, a, xa, ya, wa, xla, yla), b, xb, yb, wb, xlb, ylb).dynamicPlots
      == p.dynamicPlots[a := AddData(Target(p, a, wa, xla, yla), xa, ya)]
                       [b := AddData(Target(p, b, wb, xlb, ylb), xb, yb)]
  {
    var pa := AddDynamicPlot(p, a, xa, ya, wa, xla, yla);
    assert Target(pa, b, wb, xlb, ylb) == Target(p, b, wb, xlb, ylb);
  }

  /** Creating two plots in either order gives the same plotter, so the order
      the render loop visits them in is by name, not by creation. */
  lemma CreationOrderInvisible(p: ImPlotter,
                               a: string, xa: real, ya: real, wa: nat, xla: string, yla: string,
                               b: string, xb: real, yb: real, wb: nat, xlb: string, ylb: string)
    requires a != b
    ensures
      var ab := AddDynamicPlot(AddDynamicPlot(p, a, xa, ya, wa, xla, yla), b, xb, yb, wb, xlb, ylb);
      var ba := AddDynamicPlot(AddDynamicPlot(p, b, xb, yb, wb, xlb, ylb), a, xa, ya, wa, xla, yla);
      ab == ba && DynamicDrawOrder(ab) == DynamicDrawOrder(ba)
  {
    if p.running {
      TwoAppends(p, a, xa, ya, wa, xla, yla, b, xb, yb, wb, xlb, ylb);
      TwoAppends(p, b, xb, yb, wb, xlb, ylb, a, xa, ya, wa, xla, yla);
      UpdatesCommute(p.dynamicPlots, a, b, AddData(Target(p, a, wa, xla, yla), xa, ya),
                     AddData(Target(p, b, wb, xlb, ylb), xb, yb));
    }
  }

  lemma UpdatesCommute<K, V>(m: map<K, V>, a: K, b: K, va: V, vb: V)
    requires a != b
    ensures m[a := va][b := vb] == m[b := vb][a := va]
  {
  }

  /** Any listing of the static names that is ascending is the draw order. */
  lemma DrawOrderIsNameOrder(p: ImPlotter, names: seq<string>)
    requires KeyOrder.Ascending(names)
    requires forall n :: n in names <==> n in p.staticPlots
    ensures names == StaticDrawOrder(p)
  {
    KeyOrder.AscendingListingUnique(names, StaticDrawOrder(p));
  }
}
